=== FILE: README.md ===
# Repository security scanner: a Dafny model of its core

The scanner walks a repository and collects source files. It asks a language
model to list each file's vulnerabilities and turns those lists into one risk
score. It also checks `requirements.txt` for unpinned dependencies and can ask
the model to rewrite a file as a patch. This project models the deterministic
core of that pipeline as pure Dafny functions and proves properties about it.

- `RiskScore` (`risk_score.dfy`) models the risk score:
  - each finding weighs 10, 7, 4 or 1 by severity;
  - the score is 100 times the total weight over ten times the finding count;
  - the level is CRITICAL, HIGH, MEDIUM or LOW at 75, 50 and 25;
  - the reported score is rounded to two decimals.

  The score is an exact rational. The method `CalculateRiskScore` is the loop
  of `calculate_risk_score`, and it is proved equal to the functional
  `Calculate`.
- `Dependencies` (`dependency_checker.dfy`) models the dependency check:
  - requirement lines are parsed by stripping them and dropping blanks and
    `#` comments;
  - the pinning heuristic rates a line LOW when it contains `==` and MEDIUM
    otherwise;
  - an optional refinement by an advisor overwrites the heuristic's fields
    when its reply decodes.
- `RepoScanner` (`repo_scanner.dfy`) models the repository walk:
  - a file name is accepted exactly as `os.path.splitext` plus a
    case-insensitive extension test would accept it;
  - the walk is over a directory tree that prunes ignored sub-directories.

  The collected paths are characterised against an independent listing of
  every file in the tree.
- `AiAnalyzer` (`ai_analyzer.dfy`) models how model replies are handled:
  - a reply is cleaned by stripping it and, when it opens with a code fence,
    keeping the text between the first two fences, or all of the text after
    the opening fence when there is no second one;
  - `analyze_code` falls back to an empty report;
  - `generate_patch` falls back to the original code.
- Supporting modules:
  - `Text` (`text.dfy`) holds the Python string operations the core relies on:
    `strip`, `upper`, `lower`, `split` and `startswith`. `Find` is the scan
    for the leftmost separator inside `split`.
  - `Sums` (`sums.dfy`) is a generic sum over sequences with its permutation,
    update and bounds lemmas.
  - `Wrappers` (`wrappers.dfy`) is `Option`.

Calls to the language model are inputs, not computations:
- A reply is an `Option<string>`, where `None` stands for a call that raised.
- `json.loads` is a decoding function passed as a parameter, which returns
  `None` when decoding fails.
- The file system is a tree value, and an existing or missing requirements
  file is an `Option` of its lines.

Two behaviours of the code are easy to miss:
- The level is chosen from the unrounded score, and only then is the score
  rounded. A score of 74.995… is therefore reported as 75.0 with level HIGH
  (`RiskScore.LevelPrecedesRounding`).
- A reply made only of white space is non-empty, so `generate_patch` cleans
  it. The patch it returns is then the empty string, not the original code
  (`AiAnalyzer.WhitespaceResponseEmptiesPatch`).

## Model

| member | source | states |
|---|---|---|
| RiskScore.Weight | metrics/risk_score.py:4-9 | every weight lies in 1..10; 10, 7 and 4 are given exactly to the upper-cased labels CRITICAL, HIGH and MEDIUM, and 1 to every other label, LOW included |
| RiskScore.WeightIgnoresCase | metrics/risk_score.py:32-33 | two severity labels equal up to case weigh the same |
| RiskScore.UnknownSeverityWeighsAsLow | metrics/risk_score.py:32-33 | an unrecognised label weighs as much as LOW, namely 1 |
| RiskScore.WeightTotalBounds | metrics/risk_score.py:27-34 | the total weight is at least the finding count and at most ten times it |
| RiskScore.Classify | metrics/risk_score.py:56-68 | for every non-LOW level t, the classified level is at least t exactly when the score reaches t's threshold (75, 50, 25) |
| RiskScore.ClassifyMonotone | metrics/risk_score.py:56-68 | a higher score never gives a lower level |
| RiskScore.ThresholdBoundaries | metrics/risk_score.py:61-66 | each threshold is inclusive: 75 is CRITICAL and 74.99 HIGH, 50 is HIGH and 49.99 MEDIUM, 25 is MEDIUM and 24.99 LOW |
| RiskScore.ScoreTimesCount | metrics/risk_score.py:44-45 | the normalised score times the finding count is ten times the total weight |
| RiskScore.ScoreIsMean | metrics/risk_score.py:44-45 | the score W / (10 N) * 100 is 10 W / N |
| RiskScore.ScoreMonotone | metrics/risk_score.py:44-45 | for a fixed count, more weight never lowers the score |
| RiskScore.ScoreBounds | metrics/risk_score.py:44-45 | with every weight between 1 and 10, the score lies between 10 and 100 |
| RiskScore.Round2Monotone | metrics/risk_score.py:50 | rounding to two decimals preserves order |
| RiskScore.Round2Whole | metrics/risk_score.py:50 | rounding leaves whole numbers unchanged |
| RiskScore.TieRoundsUp | metrics/risk_score.py:45-50 | a total weight of 25 over 16 findings gives the exact score 15.625, which the model rounds half up to 15.63 |
| RiskScore.ScoreReaches | metrics/risk_score.py:44-47 | the score reaches a threshold c exactly when ten times the weight reaches c times the count |
| RiskScore.ClassifyByCounts | metrics/risk_score.py:44-47 | the level depends only on integer comparisons: CRITICAL iff 2W ≥ 15N, HIGH iff W ≥ 5N, MEDIUM iff 2W ≥ 5N |
| RiskScore.Calculate | metrics/risk_score.py:12-53 | the count is the number of findings; no findings gives score 0.0, LOW, 0; otherwise the score is 10 W / N rounded to two decimals, lies in 10..100 and is never 0, and the level is the one the integer thresholds select for the unrounded score |
| RiskScore.CalculateRiskScore | metrics/risk_score.py:24-53 | the accumulating loop over reports and findings returns the same summary as the functional definition |
| RiskScore.HomogeneousScore | metrics/risk_score.py:27-47 | when every finding has the same severity, the score is ten times its weight and the level is that score's level |
| RiskScore.ReportOrderIrrelevant | metrics/risk_score.py:27-34 | any reordering of the reports gives the same summary |
| RiskScore.FindingOrderIrrelevant | metrics/risk_score.py:31-34 | any reordering of one report's findings gives the same summary |
| RiskScore.RaisingSeverityNeverLowers | metrics/risk_score.py:27-47 | raising one finding's severity keeps the count and never lowers the score or the level |
| RiskScore.EmptyReportsAreNeutral | metrics/risk_score.py:28-29 | appending reports with no findings changes nothing |
| RiskScore.SingleHighExample | metrics/risk_score.py:12-53 | one HIGH finding gives 70.0, HIGH, 1 |
| RiskScore.MixedReportsExample | metrics/risk_score.py:12-53 | a report with a CRITICAL and a LOW finding and one with a MEDIUM finding, labels in any letter case, give 50.0, HIGH, 3 |
| RiskScore.LevelPrecedesRounding | metrics/risk_score.py:47-51 | 167 CRITICAL and 836 HIGH findings are reported as 75.0 with level HIGH, although 75.0 alone classifies as CRITICAL |
| Text.Strip | agent/dependency_checker.py:41 | the result is no longer than the input and neither starts nor ends with white space |
| Text.StripKeepsSlice | agent/dependency_checker.py:41 | the result is a contiguous slice of the input with only white space before and after it |
| Text.StripEmpty | agent/dependency_checker.py:41 | the result is empty exactly when the input is all white space |
| Text.StripRightAfter | agent/ai_analyzer.py:61 | trailing white space after a prefix that does not end in white space is stripped from the rest alone |
| Text.StripIdempotent | agent/ai_analyzer.py:61 | stripping twice is stripping once |
| Text.CaseFolding | metrics/risk_score.py:32 | upper-casing leaves no lower-case letter and lower-casing no upper-case one; lower-casing after upper-casing is lower-casing alone, and the other way round |
| Text.LowerIdempotent | agent/repo_scanner.py:53 | lower-casing twice is lower-casing once |
| Text.Find | agent/ai_analyzer.py:65 | the scan inside `split`: the first index where the separator occurs, and none exactly when it does not occur |
| Text.SplitOn | agent/ai_analyzer.py:65 | the pieces joined with the separator give back the input; no piece contains the separator; each piece but the last ends at the leftmost occurrence after its start, since not even that piece followed by all but the separator's last character contains one; there is one piece exactly when the separator does not occur, and otherwise the first piece ends where it first occurs |
| Text.FirstPiece | agent/ai_analyzer.py:65 | the first piece is the text before the leftmost separator, which follows it, or the whole text when there is none |
| Text.SplitLeadingSeparator | agent/ai_analyzer.py:64-65 | splitting a text that opens with the separator yields an empty first piece and then the pieces of the rest |
| Dependencies.ParseRequirements | agent/dependency_checker.py:33-45 | at most one dependency per line |
| Dependencies.ParseIsFilter | agent/dependency_checker.py:40-43 | parsing strips every line and then keeps, in order, the stripped lines that are non-empty and do not start with `#` |
| Dependencies.ParseRequirementsMembers | agent/dependency_checker.py:40-43 | the dependencies are exactly the stripped lines that are non-empty and do not start with `#` |
| Dependencies.ParseRequirementsAppend | agent/dependency_checker.py:40-43 | reading one more line appends its stripped text exactly when it is a requirement, so file order is kept |
| Dependencies.InlineCommentKept | agent/dependency_checker.py:41-43 | a comment line and a blank line are dropped; an inline comment stays part of the kept requirement |
| Dependencies.ParseTwoSkippedThenKept | agent/dependency_checker.py:40-43 | two skipped lines followed by a requirement parse to that requirement alone, stripped |
| Dependencies.Heuristic | agent/dependency_checker.py:53-65 | the result has exactly the keys dependency, risk_level and description; the level is never UNKNOWN; it is LOW iff the line contains `==` and MEDIUM otherwise, with the matching description |
| Dependencies.PinningExamples | agent/dependency_checker.py:60-65 | `flask` and the range pins `>=` and `~=` are MEDIUM; `flask==2.0.1` is LOW |
| Dependencies.AnalyzeDependency | agent/dependency_checker.py:47-92 | with no advisor, or when its own model call or the decoding fails, the heuristic result is returned unchanged; otherwise the decoded fields of that call's reply overwrite it, and the heuristic's other fields remain |
| Dependencies.CheckDependencies | agent/dependency_checker.py:15-31 | a missing file gives no results; otherwise there is one result per parsed dependency in order, the k-th made by the k-th model call, and it is the heuristic alone when there is no advisor |
| Dependencies.FailingAdvisorKeepsHeuristic | agent/dependency_checker.py:67-90 | an advisor whose every call fails gives the same results as no advisor at all |
| Dependencies.DuplicateLinesMayDiffer | agent/dependency_checker.py:27-28 | two equal requirement lines are analysed by separate calls: when the first reply sets the level to HIGH and the second call fails, the first result is HIGH, the second is the heuristic, and the two differ |
| RepoScanner.LastIndex | agent/repo_scanner.py:52 | the last position of the character, or -1 when it does not occur |
| RepoScanner.Extension | agent/repo_scanner.py:52 | the extension is empty or a dot-led suffix of the name with no further dot or slash; it is non-empty exactly when the last dot comes after the last slash and has a character other than a dot before it in the last component, and then it runs from that dot to the end |
| RepoScanner.IsValidFile | agent/repo_scanner.py:48-53 | a name is accepted iff it ends, ignoring case, in an allowed extension that has a character other than a dot before it in the last path component |
| RepoScanner.ExtensionOfLowered | agent/repo_scanner.py:52-53 | the extension of the lower-cased name is the lower-cased extension |
| RepoScanner.ValidFileIgnoresCase | agent/repo_scanner.py:52-53 | lower-casing a name does not change whether it is accepted |
| RepoScanner.NoDotRejected | agent/repo_scanner.py:52-53 | a name without a dot has no extension and is rejected |
| RepoScanner.UpperCaseExtensionAccepted | agent/repo_scanner.py:53 | `Main.PY` is accepted |
| RepoScanner.DotFileRejected | agent/repo_scanner.py:52-53 | `.py` has no extension and is rejected |
| RepoScanner.UnlistedExtensionRejected | agent/repo_scanner.py:23-29 | `notes.txt` is rejected |
| RepoScanner.Join | agent/repo_scanner.py:43 | the joined path ends with the file name; an absolute name replaces the directory; otherwise the path starts with the directory, and a slash comes right before the name whenever the directory is non-empty; exactly one character, that slash, is added when the directory is non-empty and does not end in a slash, and nothing is added otherwise |
| RepoScanner.Scan | agent/repo_scanner.py:31-46 | the walk returns, in walk order, the joined paths of exactly those files of the full listing of the tree that are accepted and have no ignored directory on the way |
| RepoScanner.ScanSubdirs | agent/repo_scanner.py:37-39 | walking the sub-directories in order is filtering their combined listing, so a sub-directory with an ignored name contributes nothing |
| RepoScanner.SelectBelow | agent/repo_scanner.py:39 | the files under a sub-directory are collected with its name joined on, unless that name is ignored, in which case none are |
| RepoScanner.SelectMembers | agent/repo_scanner.py:41-44 | a path is collected from a listing iff it is the path of a listed file that is accepted and has no ignored directory on the way |
| RepoScanner.RootNeverPruned | agent/repo_scanner.py:37-39 | renaming the root to any name, an ignored one included, leaves the walk unchanged, and the root's accepted files are always collected |
| RepoScanner.PruningIsCaseSensitive | agent/repo_scanner.py:39 | `Node_Modules` is not pruned: ignored names are compared exactly |
| AiAnalyzer.CleanResponse | agent/ai_analyzer.py:61-65 | an unfenced reply is just stripped; a fenced reply yields a fence-free prefix of the text after the opening fence; when that text holds another fence, the result ends exactly at its first occurrence and is followed by it, and when it holds none, the result is that whole text |
| AiAnalyzer.FencedBlockInner | agent/ai_analyzer.py:61-65 | a reply made of a fence, an inner text, a fence and any rest cleans to exactly the inner text, provided the inner text holds no fence and does not end in a backtick |
| AiAnalyzer.CleanResponseOfStripped | agent/ai_analyzer.py:61-65 | cleaning a reply and cleaning its stripped form give the same text |
| AiAnalyzer.StripAfterFence | agent/ai_analyzer.py:61 | stripping a reply that opens with a fence-led block ending in a backtick removes white space only from the end of what follows the block |
| AiAnalyzer.LanguageTagKept | agent/ai_analyzer.py:64-65 | a `json` language tag after the opening fence is kept in the cleaned text |
| AiAnalyzer.Fallback | agent/ai_analyzer.py:69-75 | the fallback report names the file and holds no findings |
| AiAnalyzer.AnalyzeCode | agent/ai_analyzer.py:56-75 | a failed call, an empty reply or undecodable text gives the fallback; otherwise the result is what the cleaned reply decodes to |
| AiAnalyzer.GeneratePatch | agent/ai_analyzer.py:92-106 | a failed call or empty reply gives back the original code; any other reply gives its cleaned text |
| AiAnalyzer.FencedPatchHasNoFence | agent/ai_analyzer.py:97-102 | the patch from a fenced reply contains no fence |
| AiAnalyzer.WhitespaceResponseEmptiesPatch | agent/ai_analyzer.py:94-102 | a non-empty reply made only of white space yields the empty patch, not the original code |
| AiAnalyzer.FailedAnalysisAddsNothing | agent/ai_analyzer.py:69-75 | the fallback report of a failed analysis leaves the repository's risk summary unchanged |

## Left out

- File reading, `os.path.exists` and `os.walk` are not modelled as I/O. A requirements file is an `Option` of its lines, and the repository is a `Dir` tree whose order is the order `os.walk` happens to list.
- Splitting a file into lines is not modelled: a line may keep its newline, which `strip` removes.
- Symbolic links, unreadable directories and walk errors are left out.
- The language model and `json.loads` are left out. They are a reply parameter and a decoding function. The reply is indexed by the number of the call, so that separate calls may answer differently; the prompt the call receives is not modelled.
- The prompt texts and the `genai` configuration are left out.
- The `print` of error messages is left out.
- Exceptions other than a failed call or failed decoding are left out. A non-string severity, which would make `.upper()` raise, is one of them.
- An explicit `null` under `vulnerabilities` or `severity` is left out; in Python `len` or `.upper()` would raise on it. In the model, `None` stands for a missing key, which reads as no findings or as LOW.
- RiskScore.Calculate: the score is exact. Python's floating-point division is not modelled. `Round2` rounds half up, while Python's `round` rounds the binary float, and an exact tie goes to the even neighbour. The two therefore differ on ties, including ties a binary float represents exactly. A total weight of 25 over 16 findings gives 15.625 exactly: Python reports 15.62, and the model reports 15.63 (`RiskScore.TieRoundsUp`).
- Text.Strip: only ASCII white space counts (space, tab to carriage return, and the separators 0x1C to 0x1F). Python's `str.strip` also removes Unicode spaces.
- Text.Upper: only ASCII letters are changed. Python's `str.upper` also maps other letters.
- Text.Lower: only ASCII letters are changed. Python's `str.lower` also maps other letters.
- Dependencies.ParseRequirements: its own contract bounds the count only. The contents and order are stated by `ParseIsFilter`, `ParseRequirementsMembers` and `ParseRequirementsAppend`.
- RepoScanner.Join: it models POSIX `os.path.join` of two components. Windows path rules are left out.
- Decoding with `errors="ignore"` is left out: characters are taken as given.
- The advisor-refinement step of the dependency check decodes the stripped reply without fence cleaning, as the code does. Decoded values that are not strings are not modelled, because fields are string maps.
- `agent/patch_generator.py` and `main.py` are not part of this model. Neither is the vulnerability detector that produces the per-file reports.

=== FILE: ai_analyzer.dfy ===
/** The model-response handling of the code analyzer: markdown-fence
    stripping of the trimmed response, and the safe results returned when
    the response is empty or anything fails.

    The model call is abstract: a response is the response text, or `None`
    when the call (or reading its text) raises.  JSON decoding is an
    abstract `decode` that yields a file report or `None` when it raises. */
module AiAnalyzer {
  import opened Wrappers
  import opened Text
  import RiskScore

  const Fence: string := "```"

  /** The trimmed response, and when it opens with a fence, the text between
      the first and second fence (index 1 of splitting on the fence). */
  function CleanResponse(text: string): (cleaned: string)
    ensures !StartsWith(Strip(text), Fence) ==> cleaned == Strip(text)
    ensures StartsWith(Strip(text), Fence) ==> !Contains(cleaned, Fence)
    ensures StartsWith(Strip(text), Fence) ==> StartsWith(Strip(text)[|Fence|..], cleaned)
    ensures StartsWith(Strip(text), Fence) && Contains(Strip(text)[|Fence|..], Fence) ==>
      StartsWith(Strip(text)[|Fence|..], cleaned + Fence)
    ensures StartsWith(Strip(text), Fence) && Contains(Strip(text)[|Fence|..], Fence) ==>
      Find(Strip(text)[|Fence|..], Fence) == Some(|cleaned|)
    ensures StartsWith(Strip(text), Fence) && !Contains(Strip(text)[|Fence|..], Fence) ==>
      cleaned == Strip(text)[|Fence|..]
  {
    var trimmed := Strip(text);
    if StartsWith(trimmed, Fence) then
      SplitLeadingSeparator(trimmed, Fence);
      FirstPiece(trimmed[|Fence|..], Fence);
      SplitOn(trimmed, Fence)[1]
    else
      trimmed
  }

  /** A fenced block yields exactly its inner text, whatever follows the
      closing fence, provided the inner text holds no fence and does not end
      in a backtick (which would join the closing fence).  A language tag
      after the opening fence is part of that inner text. */
  lemma FencedBlockInner(inner: string, rest: string)
    requires !Contains(inner, Fence)
    requires inner == [] || inner[|inner| - 1] != '`'
    ensures CleanResponse(Fence + inner + Fence + rest) == inner
  {
    var block := Fence + inner + Fence;
    var trimmed := block + StripRight(rest);
    assert Strip(block + rest) == trimmed by {
      StripAfterFence(block, rest);
    }
    assert CleanResponse(block + rest) == CleanResponse(trimmed) by {
      CleanResponseOfStripped(block + rest);
    }
    assert CleanResponse(trimmed) == inner by {
      FencedTrimmedBlock(inner, StripRight(rest));
    }
  }

  /** Only the trailing whitespace of what follows a fence-led block is stripped. */
  lemma StripAfterFence(block: string, rest: string)
    requires StartsWith(block, Fence) && block[|block| - 1] == '`'
    ensures Strip(block + rest) == block + StripRight(rest)
  {
    assert StripLeft(block + rest) == block + rest by {
      assert (block + rest)[0] == '`';
    }
    StripRightAfter(block, rest);
  }

  /** Cleaning looks only at the stripped response. */
  lemma CleanResponseOfStripped(text: string)
    ensures CleanResponse(text) == CleanResponse(Strip(text))
  {
    StripIdempotent(text);
  }

  /** `FencedBlockInner` for a block that `strip` leaves as it is. */
  lemma FencedTrimmedBlock(inner: string, rest: string)
    requires !Contains(inner, Fence)
    requires inner == [] || inner[|inner| - 1] != '`'
    requires rest == [] || !IsSpace(rest[|rest| - 1])
    ensures CleanResponse(Fence + inner + Fence + rest) == inner
  {
    var body := inner + (Fence + rest);
    var text := Fence + body;
    assert text == Fence + inner + Fence + rest by {
      ConcatAssociative(Fence, inner, Fence + rest);
      ConcatAssociative(Fence + inner, Fence, rest);
    }
    assert body == inner + Fence + rest by {
      ConcatAssociative(inner, Fence, rest);
    }
    assert Strip(text) == text by {
      StripUntrimmed(text);
    }
    assert StartsWith(text, Fence) && text[|Fence|..] == body;
    assert Find(body, Fence) == Some(|inner|) && Contains(body, Fence) by {
      FirstFenceAfter(inner, rest);
      assert OccursAt(body, Fence, |inner|);
    }
    var cleaned := CleanResponse(text);
    assert |cleaned| == |inner| && body[..|cleaned|] == cleaned;
    assert body[..|inner|] == inner;
  }

  /** The first fence in `inner + Fence + rest` is the one after `inner`. */
  lemma FirstFenceAfter(inner: string, rest: string)
    requires !Contains(inner, Fence)
    requires inner == [] || inner[|inner| - 1] != '`'
    ensures Find(inner + Fence + rest, Fence) == Some(|inner|)
  {
    var body := inner + Fence + rest;
    assert OccursAt(body, Fence, |inner|);
    forall k | 0 <= k < |inner|
      ensures !OccursAt(body, Fence, k)
    {
      if k + |Fence| <= |inner| {
        assert inner[k..k + |Fence|] == body[k..k + |Fence|];
        assert !OccursAt(inner, Fence, k);
      } else {
        assert body[|inner| - 1] == inner[|inner| - 1] != '`';
        assert k + |Fence| <= |body| ==> body[k..k + |Fence|][|inner| - 1 - k] == body[|inner| - 1];
      }
    }
  }

  /** The language tag "json" is kept: "```json\n{}\n```" cleans to "json\n{}\n". */
  lemma LanguageTagKept()
    ensures CleanResponse(Fence + "json\n{}\n" + Fence) == "json\n{}\n"
  {
    var inner: string := "json\n{}\n";
    assert !Contains(inner, Fence) by {
      forall k | 0 <= k <= |inner| - |Fence| ensures !OccursAt(inner, Fence, k) {
        assert inner[k] != '`';
      }
    }
    FencedBlockInner(inner, []);
    assert Fence + inner + Fence + [] == Fence + inner + Fence;
  }

  /** The safe result of `analyze_code`: the file with no findings. */
  function Fallback(filePath: string): (r: RiskScore.FileReport)
    ensures r.file == Some(filePath)
    ensures RiskScore.Findings(r) == []
  {
    RiskScore.FileReport(Some(filePath), Some([]))
  }

  /** `analyze_code`: the decoded cleaned response, or the fallback when the
      call fails, the response is empty or decoding fails. */
  function AnalyzeCode(filePath: string, response: Option<string>,
                       decode: string -> Option<RiskScore.FileReport>): (r: RiskScore.FileReport)
    ensures response == None || response == Some([]) ==> r == Fallback(filePath)
    ensures response.Some? && response.value != [] && decode(CleanResponse(response.value)).None? ==>
      r == Fallback(filePath)
    ensures response.Some? && response.value != [] && decode(CleanResponse(response.value)).Some? ==>
      r == decode(CleanResponse(response.value)).value
    ensures r != Fallback(filePath) ==>
      response.Some? && response.value != [] && decode(CleanResponse(response.value)) == Some(r)
  {
    match response
    case None => Fallback(filePath)
    case Some(text) =>
      if text == [] then Fallback(filePath)
      else
        match decode(CleanResponse(text))
        case None => Fallback(filePath)
        case Some(report) => report
  }

  /** `generate_patch`: the original code when the call fails or the
      response is empty, otherwise the cleaned response. */
  function GeneratePatch(code: string, response: Option<string>): (patched: string)
    ensures response == None || response == Some([]) ==> patched == code
    ensures response.Some? && response.value != [] ==> patched == CleanResponse(response.value)
  {
    match response
    case None => code
    case Some(text) => if text == [] then code else CleanResponse(text)
  }

  /** A fenced response yields a patch with no fence in it. */
  lemma FencedPatchHasNoFence(code: string, text: string)
    requires text != [] && StartsWith(Strip(text), Fence)
    ensures !Contains(GeneratePatch(code, Some(text)), Fence)
  {
  }

  /** A response of only whitespace is not empty, so it is cleaned rather
      than replaced by the original code, and the patch comes out empty. */
  lemma WhitespaceResponseEmptiesPatch(code: string, text: string)
    requires text != [] && forall k :: 0 <= k < |text| ==> IsSpace(text[k])
    ensures GeneratePatch(code, Some(text)) == []
  {
  }

  /** A failed analysis adds a report with no findings, which leaves the
      repository summary unchanged. */
  lemma FailedAnalysisAddsNothing(reports: seq<RiskScore.FileReport>, filePath: string,
                                  response: Option<string>, decode: string -> Option<RiskScore.FileReport>)
    requires response == None || response == Some([]) || decode(CleanResponse(response.value)).None?
    ensures RiskScore.Calculate(reports + [AnalyzeCode(filePath, response, decode)]) == RiskScore.Calculate(reports)
  {
    RiskScore.EmptyReportsAreNeutral(reports, [AnalyzeCode(filePath, response, decode)]);
  }
}

=== FILE: dependency_checker.dfy ===
/** The dependency risk evaluator: the requirements-file line filter, the
    pinning heuristic, the optional model refinement that overwrites fields
    only on success, and one result per kept line in file order.

    A result is a string-keyed dictionary, as `_analyze_dependency` builds
    it, so that a refinement may overwrite any field or add new ones.  The
    model is an abstract `Advisor`: `reply(k)` is the response text to the
    k-th call, one call per kept line, or `None` when that call raises;
    `decode` is the JSON decoding into a dictionary, or `None` when decoding
    raises. */
module Dependencies {
  import opened Wrappers
  import opened Text

  type Fields = map<string, string>

  const UnpinnedDescription: string :=
    "Dependency version not pinned. May introduce breaking or insecure updates."
  const PinnedDescription: string :=
    "Version pinned. No immediate structural risk detected."

  /** A stripped line is a requirement when it is non-empty and not a comment. */
  predicate IsRequirement(clean: string) {
    clean != [] && !StartsWith(clean, "#")
  }

  /** Every line of a file, stripped. */
  function StrippedLines(lines: seq<string>): (r: seq<string>)
    ensures |r| == |lines|
    ensures forall j :: 0 <= j < |lines| ==> r[j] == Strip(lines[j])
  {
    seq(|lines|, j requires 0 <= j < |lines| => Strip(lines[j]))
  }

  /** The stripped requirement lines of a requirements file, in file order. */
  function ParseRequirements(lines: seq<string>): (deps: seq<string>)
    ensures |deps| <= |lines|
  {
    if lines == [] then []
    else
      var clean := Strip(lines[0]);
      var rest := ParseRequirements(lines[1..]);
      if IsRequirement(clean) then [clean] + rest else rest
  }

  /** The parsed dependencies are exactly the stripped lines that are requirements. */
  lemma ParseRequirementsMembers(lines: seq<string>)
    ensures forall d :: d in ParseRequirements(lines) <==> d in StrippedLines(lines) && IsRequirement(d)
  {
    ParseIsFilter(lines);
    FilterMembers(StrippedLines(lines));
  }

  /** The requirement lines among already stripped lines, in order. */
  function Requirements(cleaned: seq<string>): seq<string> {
    if cleaned == [] then []
    else (if IsRequirement(cleaned[0]) then [cleaned[0]] else []) + Requirements(cleaned[1..])
  }

  /** Parsing is stripping every line, then keeping the requirements. */
  lemma {:induction false} ParseIsFilter(lines: seq<string>)
    ensures ParseRequirements(lines) == Requirements(StrippedLines(lines))
  {
    if lines != [] {
      var stripped := StrippedLines(lines);
      assert stripped[0] == Strip(lines[0]);
      assert stripped[1..] == StrippedLines(lines[1..]);
      ParseIsFilter(lines[1..]);
    }
  }

  lemma {:induction false} FilterMembers(cleaned: seq<string>)
    ensures forall d :: d in Requirements(cleaned) <==> d in cleaned && IsRequirement(d)
  {
    if cleaned != [] {
      FilterMembers(cleaned[1..]);
      assert cleaned == [cleaned[0]] + cleaned[1..];
    }
  }

  /** Reading one more line appends its stripped text exactly when it is a requirement. */
  lemma ParseRequirementsAppend(lines: seq<string>, line: string)
    ensures ParseRequirements(lines + [line])
         == ParseRequirements(lines) + (if IsRequirement(Strip(line)) then [Strip(line)] else [])
  {
    ParseIsFilter(lines);
    ParseIsFilter(lines + [line]);
    assert StrippedLines(lines + [line]) == StrippedLines(lines) + [Strip(line)];
    FilterAppend(StrippedLines(lines), Strip(line));
  }

  lemma {:induction false} FilterAppend(cleaned: seq<string>, clean: string)
    ensures Requirements(cleaned + [clean])
         == Requirements(cleaned) + (if IsRequirement(clean) then [clean] else [])
  {
    if cleaned == [] {
      assert cleaned + [clean] == [clean];
    } else {
      var head := if IsRequirement(cleaned[0]) then [cleaned[0]] else [];
      var last := if IsRequirement(clean) then [clean] else [];
      assert Requirements(cleaned + [clean]) == head + Requirements(cleaned[1..] + [clean]) by {
        assert (cleaned + [clean])[0] == cleaned[0];
        assert (cleaned + [clean])[1..] == cleaned[1..] + [clean];
      }
      assert Requirements(cleaned[1..] + [clean]) == Requirements(cleaned[1..]) + last by {
        FilterAppend(cleaned[1..], clean);
      }
      ConcatAssociative(head, Requirements(cleaned[1..]), last);
    }
  }

  /** An inline comment after a requirement stays part of the kept line;
      comment lines and blank lines are dropped. */
  lemma InlineCommentKept()
    ensures ParseRequirements(["# web\n", "\n", "flask==2.0.1  # pinned\n"]) == ["flask==2.0.1  # pinned"]
  {
    CommentedRequirementLine();
    ParseTwoSkippedThenKept("# web\n", "\n", "flask==2.0.1  # pinned\n");
  }

  lemma ParseTwoSkippedThenKept(a: string, b: string, c: string)
    requires !IsRequirement(Strip(a)) && !IsRequirement(Strip(b)) && IsRequirement(Strip(c))
    ensures ParseRequirements([a, b, c]) == [Strip(c)]
  {
    var none: seq<string> := [];
    assert ParseRequirements([c]) == [Strip(c)] by {
      ParseRequirementsCons(c, none);
      assert [c] + none == [c];
    }
    assert ParseRequirements([b, c]) == ParseRequirements([c]) by {
      ParseRequirementsCons(b, [c]);
      assert [b] + [c] == [b, c];
    }
    assert ParseRequirements([a, b, c]) == ParseRequirements([b, c]) by {
      ParseRequirementsCons(a, [b, c]);
      assert [a] + [b, c] == [a, b, c];
    }
  }

  /** The three lines of the example above, stripped and checked against
      `IsRequirement` one by one. */
  lemma CommentedRequirementLine()
    ensures !IsRequirement(Strip("# web\n"))
    ensures !IsRequirement(Strip("\n"))
    ensures Strip("flask==2.0.1  # pinned\n") == "flask==2.0.1  # pinned"
    ensures IsRequirement("flask==2.0.1  # pinned")
  {
    CommentLineSkipped("# web\n");
    BlankLineSkipped("\n");
    PinnedLineKept();
  }

  lemma PinnedLineKept()
    ensures Strip("flask==2.0.1  # pinned\n") == "flask==2.0.1  # pinned"
  {
    var c := "flask==2.0.1  # pinned\n";
    StripOneNewline(c);
    assert c[..|c| - 1] == "flask==2.0.1  # pinned";
  }

  /** A comment line with one trailing newline is skipped. */
  lemma CommentLineSkipped(line: string)
    requires |line| >= 2 && line[0] == '#' && line[|line| - 1] == '\n' && !IsSpace(line[|line| - 2])
    ensures !IsRequirement(Strip(line))
  {
    StripOneNewline(line);
    assert Strip(line)[0] == '#';
  }

  /** A line of whitespace only is skipped. */
  lemma BlankLineSkipped(line: string)
    requires forall k :: 0 <= k < |line| ==> IsSpace(line[k])
    ensures !IsRequirement(Strip(line))
  {
    StripEmpty(line);
  }

  /** Reading a file line by line: the first line contributes its stripped
      text exactly when it is a requirement. */
  lemma ParseRequirementsCons(line: string, rest: seq<string>)
    ensures ParseRequirements([line] + rest)
         == (if IsRequirement(Strip(line)) then [Strip(line)] else []) + ParseRequirements(rest)
  {
    assert ([line] + rest)[1..] == rest;
  }

  /** A line with one trailing newline and no other surrounding whitespace
      strips to the line without its newline. */
  lemma StripOneNewline(line: string)
    requires |line| >= 2 && line[|line| - 1] == '\n'
    requires !IsSpace(line[0]) && !IsSpace(line[|line| - 2])
    ensures Strip(line) == line[..|line| - 1]
  {
    assert StripLeft(line) == line;
    assert StripRight(line[..|line| - 1]) == line[..|line| - 1];
  }

  /** The pinning test of the heuristic: the line contains "==". */
  predicate IsPinned(dependency: string) {
    Contains(dependency, "==")
  }

  /** The heuristic result: starts at "UNKNOWN" with an empty description,
      then LOW with the pinned text for a pinned line and MEDIUM with the
      unpinned text otherwise. */
  function Heuristic(dependency: string): (r: Fields)
    ensures r.Keys == {"dependency", "risk_level", "description"}
    ensures r["dependency"] == dependency
    ensures r["risk_level"] != "UNKNOWN"
    ensures r["risk_level"] == "LOW" <==> IsPinned(dependency)
    ensures r["risk_level"] == "MEDIUM" <==> !IsPinned(dependency)
    ensures r["description"] == (if IsPinned(dependency) then PinnedDescription else UnpinnedDescription)
  {
    var base := map["dependency" := dependency, "risk_level" := "UNKNOWN", "description" := ""];
    if !IsPinned(dependency) then
      base["risk_level" := "MEDIUM"]["description" := UnpinnedDescription]
    else
      base["risk_level" := "LOW"]["description" := PinnedDescription]
  }

  /** "flask" is unpinned; "flask==2.0.1" is pinned; the range specifiers
      ">=" and "~=" are not "==" and so count as unpinned. */
  lemma PinningExamples()
    ensures Heuristic("flask")["risk_level"] == "MEDIUM"
    ensures Heuristic("flask")["description"] == UnpinnedDescription
    ensures Heuristic("flask==2.0.1")["risk_level"] == "LOW"
    ensures Heuristic("flask==2.0.1")["description"] == PinnedDescription
    ensures Heuristic("flask>=2.0")["risk_level"] == "MEDIUM"
    ensures Heuristic("flask~=2.0")["risk_level"] == "MEDIUM"
  {
    assert OccursAt("flask==2.0.1", "==", 5);
    assert !IsPinned("flask") by {
      forall i | 0 <= i <= 3 ensures !OccursAt("flask", "==", i) {
        assert "flask"[i] != '=';
      }
    }
    assert !IsPinned("flask>=2.0") by {
      forall i | 0 <= i <= 8 ensures !OccursAt("flask>=2.0", "==", i) {
        assert "flask>=2.0"[i] != '=' || "flask>=2.0"[i + 1] != '=';
      }
    }
    assert !IsPinned("flask~=2.0") by {
      forall i | 0 <= i <= 8 ensures !OccursAt("flask~=2.0", "==", i) {
        assert "flask~=2.0"[i] != '=' || "flask~=2.0"[i + 1] != '=';
      }
    }
  }

  /** The model behind the optional refinement: the reply to each call in
      turn, and the decoding of a reply. */
  datatype Advisor = Advisor(reply: nat -> Option<string>, decode: string -> Option<Fields>)

  /** What the refinement of call `call` decoded, or `None` when the call or
      the decoding failed.  The reply is stripped before decoding. */
  function Refinement(advisor: Advisor, call: nat): Option<Fields> {
    match advisor.reply(call)
    case None => None
    case Some(text) => advisor.decode(Strip(text))
  }

  /** One dependency's result, made by model call number `call`: the
      heuristic, then, when an advisor is present and its refinement
      succeeds, the decoded fields written over it. */
  function AnalyzeDependency(dependency: string, advisor: Option<Advisor>, call: nat): (r: Fields)
    ensures Heuristic(dependency).Keys <= r.Keys
    ensures advisor.None? ==> r == Heuristic(dependency)
    ensures advisor.Some? && Refinement(advisor.value, call).None? ==> r == Heuristic(dependency)
    ensures advisor.Some? && Refinement(advisor.value, call).Some? ==>
      var decoded := Refinement(advisor.value, call).value;
      && r.Keys == Heuristic(dependency).Keys + decoded.Keys
      && (forall key :: key in decoded ==> r[key] == decoded[key])
      && (forall key :: key in Heuristic(dependency) && key !in decoded ==> r[key] == Heuristic(dependency)[key])
  {
    var base := Heuristic(dependency);
    match advisor
    case None => base
    case Some(a) =>
      match Refinement(a, call)
      case None => base
      case Some(decoded) => base + decoded
  }

  /** `check_dependencies`: no file gives no results; otherwise one result per
      requirement line, in file order, the k-th made by the k-th model call. */
  function CheckDependencies(manifest: Option<seq<string>>, advisor: Option<Advisor>): (rs: seq<Fields>)
    ensures manifest.None? ==> rs == []
    ensures manifest.Some? ==> |rs| == |ParseRequirements(manifest.value)|
    ensures manifest.Some? ==> forall k :: 0 <= k < |rs| ==>
      rs[k] == AnalyzeDependency(ParseRequirements(manifest.value)[k], advisor, k)
    ensures manifest.Some? && advisor.None? ==> forall k :: 0 <= k < |rs| ==>
      rs[k] == Heuristic(ParseRequirements(manifest.value)[k])
  {
    match manifest
    case None => []
    case Some(lines) =>
      var deps := ParseRequirements(lines);
      seq(|deps|, k requires 0 <= k < |deps| => AnalyzeDependency(deps[k], advisor, k))
  }

  /** An advisor whose every call fails changes no result: the check then
      gives the heuristic for each kept line, as with no advisor at all. */
  lemma FailingAdvisorKeepsHeuristic(manifest: Option<seq<string>>, decode: string -> Option<Fields>)
    ensures CheckDependencies(manifest, Some(Advisor(k => None, decode))) == CheckDependencies(manifest, None)
  {
    var failing := Advisor(k => None, decode);
    var with, without := CheckDependencies(manifest, Some(failing)), CheckDependencies(manifest, None);
    forall k | 0 <= k < |with| ensures with[k] == without[k] {
      assert Refinement(failing, k).None?;
    }
  }

  /** Each call is answered on its own: two equal lines get different
      results when the first call's reply raises the level to HIGH and the
      second call fails. */
  lemma DuplicateLinesMayDiffer(line: string, advisor: Advisor)
    requires IsRequirement(Strip(line))
    requires advisor.reply(0).Some? && advisor.reply(1).None?
    requires advisor.decode(Strip(advisor.reply(0).value)) == Some(map["risk_level" := "HIGH"])
    ensures var rs := CheckDependencies(Some([line, line]), Some(advisor));
      |rs| == 2 && rs[0]["risk_level"] == "HIGH" && rs[1] == Heuristic(Strip(line)) && rs[0] != rs[1]
  {
    DuplicateLinesParsed(line);
    var dep := Strip(line);
    var rs := CheckDependencies(Some([line, line]), Some(advisor));
    assert rs[0] == AnalyzeDependency(dep, Some(advisor), 0);
    assert rs[1] == AnalyzeDependency(dep, Some(advisor), 1);
    RefinedAtFirstCall(dep, advisor);
    assert Refinement(advisor, 1).None?;
    assert Heuristic(dep)["risk_level"] in {"LOW", "MEDIUM"};
  }

  /** Two copies of one requirement line parse to two copies of its stripped text. */
  lemma DuplicateLinesParsed(line: string)
    requires IsRequirement(Strip(line))
    ensures ParseRequirements([line, line]) == [Strip(line), Strip(line)]
  {
    var none: seq<string> := [];
    ParseRequirementsCons(line, [line]);
    ParseRequirementsCons(line, none);
    assert [line] + [line] == [line, line];
    assert [line] + none == [line];
  }

  /** A first call whose reply decodes to a HIGH risk level makes the result HIGH. */
  lemma RefinedAtFirstCall(dependency: string, advisor: Advisor)
    requires advisor.reply(0).Some?
    requires advisor.decode(Strip(advisor.reply(0).value)) == Some(map["risk_level" := "HIGH"])
    ensures AnalyzeDependency(dependency, Some(advisor), 0)["risk_level"] == "HIGH"
  {
    assert Refinement(advisor, 0) == Some(map["risk_level" := "HIGH"]);
  }

}

=== FILE: repo_scanner.dfy ===
/** The repository scanner: the case-insensitive extension allow-list, and a
    top-down walk that prunes ignored sub-directories by exact name.

    The file system is an inductive tree of directories: each directory has
    its file names and its sub-directories in listing order, and the walk
    starts at a given root path. */
module RepoScanner {
  import opened Text

  const IgnoredDirs: set<string> :=
    {"venv", "env", "__pycache__", "node_modules", ".git", "reports", ".idea", ".vscode"}

  const AllowedExtensions: set<string> := {".py", ".js", ".ts", ".jsx", ".tsx"}

  /** The index of the last `c` in `s`, or -1 (Python's `str.rfind`). */
  function LastIndex(s: string, c: char): (r: int)
    ensures -1 <= r < |s|
    ensures r >= 0 ==> s[r] == c
    ensures forall k :: r < k < |s| ==> s[k] != c
  {
    if s == [] then -1
    else if s[|s| - 1] == c then |s| - 1
    else LastIndex(s[..|s| - 1], c)
  }

  lemma LastIndexAt(s: string, c: char, i: int)
    requires 0 <= i < |s| && s[i] == c
    requires forall k :: i < k < |s| ==> s[k] != c
    ensures LastIndex(s, c) == i
  {
  }

  lemma LastIndexNone(s: string, c: char)
    requires forall k :: 0 <= k < |s| ==> s[k] != c
    ensures LastIndex(s, c) == -1
  {
  }

  /** The last path component of `name` has a character other than a dot
      before index `at`. */
  predicate HasStem(name: string, at: int)
    requires at <= |name|
  {
    exists k :: LastIndex(name, '/') < k < at && name[k] != '.'
  }

  /** The extension `os.path.splitext` gives a POSIX path: from the last dot
      of the last path component, provided some character before that dot in
      the component is not a dot; otherwise empty. */
  function Extension(p: string): (ext: string)
    ensures |ext| <= |p|
    ensures ext == [] || (ext[0] == '.' && p[|p| - |ext|..] == ext)
    ensures forall k :: 0 < k < |ext| ==> ext[k] != '.' && ext[k] != '/'
    ensures ext != [] <==> LastIndex(p, '.') > LastIndex(p, '/') && HasStem(p, LastIndex(p, '.'))
    ensures ext != [] ==> |ext| == |p| - LastIndex(p, '.')
  {
    var sepIndex := LastIndex(p, '/');
    var dotIndex := LastIndex(p, '.');
    if dotIndex > sepIndex && HasStem(p, dotIndex) then
      p[dotIndex..]
    else
      []
  }


  /** `name` ends, ignoring case, in the allowed extension `e`, and some
      character of the last path component before it is not a dot. */
  predicate AllowedSuffix(name: string, e: string) {
    e in AllowedExtensions && |e| <= |name| && Lower(name[|name| - |e|..]) == e && HasStem(name, |name| - |e|)
  }

  /** The test `_is_valid_file` applies, with the extension found as `e`. */
  predicate AcceptedBy(name: string, e: string) {
    Lower(Extension(name)) == e && e in AllowedExtensions
  }

  /** Every allowed extension is a dot followed by letters. */
  lemma AllowedExtensionShape(e: string)
    requires e in AllowedExtensions
    ensures |e| >= 3 && e[0] == '.'
    ensures forall k :: 0 < k < |e| ==> e[k] != '.' && e[k] != '/'
  {
  }

  /** An accepted name ends, ignoring case, in an allowed extension with a
      stem in front of it. */
  lemma ValidFileHasAllowedSuffix(name: string)
    requires Accepted(name)
    ensures AllowedSuffix(name, Lower(Extension(name)))
  {
    var e := Lower(Extension(name));
    var d := |name| - |e|;
    AllowedExtensionShape(e);
    LastIndexAt(name, '.', d);
    assert name[d..] == Extension(name);
  }

  /** A name ending, ignoring case, in an allowed extension with a stem in
      front of it is accepted. */
  lemma AllowedSuffixIsValid(name: string, e: string)
    requires AllowedSuffix(name, e)
    ensures AcceptedBy(name, e)
  {
    var d := |name| - |e|;
    var tail := name[d..];
    assert LastIndex(name, '.') == d by {
      AllowedExtensionShape(e);
      assert LowerChar(tail[0]) == e[0];
      forall k | d < k < |name| ensures name[k] != '.' {
        assert LowerChar(tail[k - d]) == e[k - d];
      }
      LastIndexAt(name, '.', d);
    }
    assert LastIndex(name, '/') < d by {
      var k :| LastIndex(name, '/') < k < d && name[k] != '.';
    }
    assert Extension(name) == tail by {
      var ext := Extension(name);
      assert ext != [] && |ext| == |tail|;
    }
  }


  /** The test `_is_valid_file` applies: the lower-cased extension is on
      the allow-list.  The walk applies it to every file name. */
  predicate Accepted(name: string) {
    Lower(Extension(name)) in AllowedExtensions
  }

  /** `_is_valid_file`.  A name is accepted exactly when it ends, ignoring
      case, in an allowed extension that has a stem in front of it within the
      last component. */
  function IsValidFile(name: string): (ok: bool)
    ensures ok == Accepted(name)
    ensures ok <==> exists e :: AllowedSuffix(name, e)
  {
    var ok := Accepted(name);
    if ok then
      ValidFileHasAllowedSuffix(name);
      ok
    else
      assert forall e :: AllowedSuffix(name, e) ==> AcceptedBy(name, e) by {
        forall e | AllowedSuffix(name, e) ensures AcceptedBy(name, e) {
          AllowedSuffixIsValid(name, e);
        }
      }
      ok
  }

  /** Lower-casing a name changes neither the positions of dots and slashes
      nor whether the name is accepted. */
  lemma ValidFileIgnoresCase(name: string)
    ensures IsValidFile(Lower(name)) == IsValidFile(name)
  {
    var e := Extension(name);
    assert Extension(Lower(name)) == Lower(e) by {
      ExtensionOfLowered(name);
    }
    assert Lower(Lower(e)) == Lower(e) by {
      LowerIdempotent(e);
    }
  }

  /** The extension of the lower-cased name is the lower-cased extension. */
  lemma ExtensionOfLowered(name: string)
    ensures Extension(Lower(name)) == Lower(Extension(name))
  {
    var low := Lower(name);
    LastIndexOfLowered(name, '.');
    LastIndexOfLowered(name, '/');
    var dot := LastIndex(name, '.');
    if dot > LastIndex(name, '/') {
      assert HasStem(low, dot) <==> HasStem(name, dot) by {
        assert forall k :: 0 <= k < |name| ==> (low[k] == '.' <==> name[k] == '.');
      }
      assert low[dot..] == Lower(name[dot..]);
    }
  }

  lemma {:induction false} LastIndexOfLowered(s: string, c: char)
    requires c == '.' || c == '/'
    ensures LastIndex(Lower(s), c) == LastIndex(s, c)
  {
    if s != [] {
      assert Lower(s)[..|s| - 1] == Lower(s[..|s| - 1]);
      LastIndexOfLowered(s[..|s| - 1], c);
    }
  }

  /** A name without a dot has no extension and is rejected. */
  lemma NoDotRejected(name: string)
    requires forall k :: 0 <= k < |name| ==> name[k] != '.'
    ensures Extension(name) == []
    ensures !IsValidFile(name)
  {
    assert Lower([]) == [];
  }

  /** Extension matching ignores case: "Main.PY" is accepted. */
  lemma UpperCaseExtensionAccepted()
    ensures IsValidFile("Main.PY")
  {
    var main: string := "Main.PY";
    assert LastIndex(main, '/') == -1 by {
      forall k | 0 <= k < |main| ensures main[k] != '/' { }
      LastIndexNone(main, '/');
    }
    assert HasStem(main, 4) by {
      assert main[0] != '.';
    }
    assert Lower(main[4..]) == ".py";
    AllowedSuffixIsValid(main, ".py");
  }

  /** A name that is only a dot and an allowed extension has no stem, so
      no extension, and is rejected. */
  lemma DotFileRejected()
    ensures !IsValidFile(".py")
  {
    LastIndexAt(".py", '.', 0);
    assert Lower([]) == [];
  }

  /** An extension off the allow-list is rejected. */
  lemma UnlistedExtensionRejected()
    ensures !IsValidFile("notes.txt")
  {
    var notes: string := "notes.txt";
    forall k | 0 <= k < |notes| ensures notes[k] != '/' { }
    LastIndexNone(notes, '/');
    LastIndexAt(notes, '.', 5);
    assert notes[0] != '.';
    assert Extension(notes) == ".txt";
    assert Lower(".txt") == ".txt";
  }

  /** POSIX `os.path.join` of two components: an absolute `b` replaces `a`;
      otherwise `b` follows `a` with exactly one slash between them unless
      `a` is empty or already ends in one. */
  function Join(a: string, b: string): (r: string)
    ensures |b| <= |r| && r[|r| - |b|..] == b
    ensures StartsWith(b, "/") ==> r == b
    ensures !StartsWith(b, "/") ==> StartsWith(r, a) && |r| <= |a| + |b| + 1
    ensures !StartsWith(b, "/") && a != [] ==> |r| > |b| && r[|r| - |b| - 1] == '/'
    ensures !StartsWith(b, "/") && a != [] && a[|a| - 1] != '/' ==> |r| == |a| + |b| + 1
    ensures !StartsWith(b, "/") && (a == [] || a[|a| - 1] == '/') ==> |r| == |a| + |b|
  {
    if StartsWith(b, "/") then b
    else if a == [] || a[|a| - 1] == '/' then a + b
    else a + "/" + b
  }

  /** A directory: its own name, its file names and its sub-directories. */
  datatype Dir = Dir(name: string, files: seq<string>, subdirs: seq<Dir>)

  /** The accepted files of one directory, joined to its path, in listing order. */
  function CollectFiles(path: string, files: seq<string>): seq<string> {
    if files == [] then []
    else (if Accepted(files[0]) then [Join(path, files[0])] else []) + CollectFiles(path, files[1..])
  }

  /** `scan`: the accepted files of `d`, found at `path`, then the scans of
      its sub-directories whose names are not ignored.  The walk collects
      exactly the collectible files of the tree, in walk order: the recursive
      pruning agrees with filtering the full listing. */
  function Scan(path: string, d: Dir): (found: seq<string>)
    ensures found == Select(path, Listing(d))
    decreases d
  {
    SelectConcat(path, FilesHere(d.files), ListingOf(d.subdirs));
    SelectFilesHere(path, d.files);
    CollectFiles(path, d.files) + ScanSubdirs(path, d.subdirs)
  }

  function ScanSubdirs(path: string, ds: seq<Dir>): (found: seq<string>)
    ensures found == Select(path, ListingOf(ds))
    decreases ds
  {
    if ds == [] then []
    else
      SelectConcat(path, Below(ds[0].name, Listing(ds[0])), ListingOf(ds[1..]));
      SelectBelow(path, ds[0].name, Listing(ds[0]));
      (if ds[0].name in IgnoredDirs then [] else Scan(Join(path, ds[0].name), ds[0]))
      + ScanSubdirs(path, ds[1..])
  }

  /** Where a file sits below the walk's root: the names of the directories
      leading to it, and its own name. */
  datatype Location = Location(dirs: seq<string>, file: string)

  /** Every file of the tree, pruned or not, in walk order. */
  function Listing(d: Dir): seq<Location>
    decreases d
  {
    FilesHere(d.files) + ListingOf(d.subdirs)
  }

  function ListingOf(ds: seq<Dir>): seq<Location>
    decreases ds
  {
    if ds == [] then [] else Below(ds[0].name, Listing(ds[0])) + ListingOf(ds[1..])
  }

  function FilesHere(files: seq<string>): (ls: seq<Location>)
    ensures |ls| == |files|
    ensures forall k :: 0 <= k < |files| ==> ls[k] == Location([], files[k])
  {
    seq(|files|, k requires 0 <= k < |files| => Location([], files[k]))
  }

  /** Locations of a sub-directory's listing, seen from its parent. */
  function Below(name: string, ls: seq<Location>): (r: seq<Location>)
    ensures |r| == |ls|
    ensures forall k :: 0 <= k < |ls| ==> r[k] == Location([name] + ls[k].dirs, ls[k].file)
  {
    seq(|ls|, k requires 0 <= k < |ls| => Location([name] + ls[k].dirs, ls[k].file))
  }

  /** The path of a location under the root path, joined one component at a time. */
  function PathOf(root: string, l: Location): string
    decreases |l.dirs|
  {
    if l.dirs == [] then Join(root, l.file)
    else PathOf(Join(root, l.dirs[0]), Location(l.dirs[1..], l.file))
  }

  /** A location is collected when no directory on its way is ignored and
      its file name is accepted. */
  predicate Collectible(l: Location) {
    (forall k :: 0 <= k < |l.dirs| ==> l.dirs[k] !in IgnoredDirs) && Accepted(l.file)
  }

  /** The paths of the collectible locations, in order. */
  function Select(root: string, ls: seq<Location>): seq<string> {
    if ls == [] then []
    else (if Collectible(ls[0]) then [PathOf(root, ls[0])] else []) + Select(root, ls[1..])
  }

  lemma {:induction false} SelectConcat(root: string, a: seq<Location>, b: seq<Location>)
    ensures Select(root, a + b) == Select(root, a) + Select(root, b)
  {
    if a == [] {
      assert a + b == b;
      assert Select(root, a) == [];
    } else {
      var head := if Collectible(a[0]) then [PathOf(root, a[0])] else [];
      assert (a + b)[0] == a[0];
      assert (a + b)[1..] == a[1..] + b;
      assert Select(root, a + b) == head + Select(root, a[1..] + b);
      SelectConcat(root, a[1..], b);
      assert Select(root, a) == head + Select(root, a[1..]);
      ConcatAssociative(head, Select(root, a[1..]), Select(root, b));
    }
  }

  lemma {:induction false} SelectFilesHere(root: string, files: seq<string>)
    ensures Select(root, FilesHere(files)) == CollectFiles(root, files)
  {
    if files != [] {
      assert FilesHere(files)[1..] == FilesHere(files[1..]);
      SelectFilesHere(root, files[1..]);
    }
  }

  /** Selecting below a sub-directory yields nothing when its name is
      ignored, and otherwise selects from its listing under its own path. */
  lemma {:induction false} SelectBelow(root: string, name: string, ls: seq<Location>)
    ensures Select(root, Below(name, ls)) == if name in IgnoredDirs then [] else Select(Join(root, name), ls)
  {
    if ls != [] {
      var l := Below(name, ls)[0];
      assert Below(name, ls)[1..] == Below(name, ls[1..]);
      SelectBelow(root, name, ls[1..]);
      assert l.dirs[0] == name && l.dirs[1..] == ls[0].dirs;
      assert Collectible(l) <==> name !in IgnoredDirs && Collectible(ls[0]) by {
        assert forall k :: 0 < k < |l.dirs| ==> l.dirs[k] == ls[0].dirs[k - 1];
        if name !in IgnoredDirs && Collectible(ls[0]) {
          forall k | 0 <= k < |l.dirs| ensures l.dirs[k] !in IgnoredDirs {
            if k > 0 {
              assert l.dirs[k] == ls[0].dirs[k - 1];
            }
          }
        }
      }
      assert PathOf(root, l) == PathOf(Join(root, name), ls[0]);
    }
  }

  lemma {:induction false} SelectMembers(root: string, ls: seq<Location>, p: string)
    ensures p in Select(root, ls) <==> exists k :: 0 <= k < |ls| && Collectible(ls[k]) && p == PathOf(root, ls[k])
  {
    if ls != [] {
      SelectMembers(root, ls[1..], p);
      assert forall k :: 0 < k < |ls| ==> ls[k] == ls[1..][k - 1];
      if exists k :: 0 <= k < |ls| && Collectible(ls[k]) && p == PathOf(root, ls[k]) {
        var k :| 0 <= k < |ls| && Collectible(ls[k]) && p == PathOf(root, ls[k]);
        if k > 0 {
          assert ls[1..][k - 1] == ls[k];
        }
      }
    }
  }

  /** The root is walked whatever its own name: only sub-directories are pruned. */
  lemma RootNeverPruned(root: string, d: Dir, name: string)
    ensures Scan(root, d) == Scan(root, d.(name := name))
    ensures CollectFiles(root, d.files) <= Scan(root, d)
  {
  }

  /** Pruning compares names exactly: "Node_Modules" is walked into. */
  lemma PruningIsCaseSensitive(root: string, sub: Dir)
    requires sub.name == "Node_Modules"
    ensures ScanSubdirs(root, [sub]) == Scan(Join(root, "Node_Modules"), sub)
  {
    var none: seq<Dir> := [];
    assert [sub][1..] == none;
    assert "Node_Modules" !in IgnoredDirs by {
      assert "Node_Modules"[0] == 'N';
    }
  }
}

=== FILE: risk_score.dfy ===
/** The repository risk aggregator: severity weights, the normalised 0-100
    score, the four-level classification and the finding count.

    Scores are exact reals.  The raw score is 10·W/N for N findings of total
    weight W; the reported score is that value rounded to two decimals, while
    the level is classified from the unrounded value. */
module RiskScore {
  import opened Wrappers
  import opened Text
  import opened Sums

  /** The weight table, keyed by upper-case severity. */
  const SeverityWeights: map<string, nat> :=
    map["CRITICAL" := 10, "HIGH" := 7, "MEDIUM" := 4, "LOW" := 1]

  /** The weight of CRITICAL, the normalisation ceiling. */
  const MaxWeight: nat := 10

  /** The weight of a label: looked up after upper-casing, 1 when
      the severity is not in the table. */
  function Weight(severity: string): (w: nat)
    ensures 1 <= w <= MaxWeight
    ensures w == 10 <==> Upper(severity) == "CRITICAL"
    ensures w == 7 <==> Upper(severity) == "HIGH"
    ensures w == 4 <==> Upper(severity) == "MEDIUM"
    ensures w == 1 <==> Upper(severity) !in {"CRITICAL", "HIGH", "MEDIUM"}
  {
    var key := Upper(severity);
    if key in SeverityWeights then SeverityWeights[key] else 1
  }

  /** Labels that differ only in letter case weigh the same. */
  lemma WeightIgnoresCase(a: string, b: string)
    requires Lower(a) == Lower(b)
    ensures Weight(a) == Weight(b)
  {
    assert Upper(a) == Upper(b) by {
      forall k | 0 <= k < |a|
        ensures Upper(a)[k] == Upper(b)[k]
      {
        assert LowerChar(a[k]) == LowerChar(b[k]);
      }
    }
  }

  /** An unrecognised severity such as "banana" weighs exactly what "LOW" weighs. */
  lemma UnknownSeverityWeighsAsLow()
    ensures Weight("banana") == Weight("LOW") == 1
  {
    assert Upper("banana") == "BANANA";
    assert Upper("LOW") == "LOW";
  }

  /** One reported vulnerability; only its severity is read here, and the
      key may be missing. */
  datatype Finding = Finding(severity: Option<string>)

  /** A missing severity counts as "LOW". */
  function FindingWeight(f: Finding): nat {
    Weight(f.severity.GetOr("LOW"))
  }

  /** One file's result; the `vulnerabilities` key may be missing. */
  datatype FileReport = FileReport(file: Option<string>, vulnerabilities: Option<seq<Finding>>)

  /** The findings of a report, none when the key is missing. */
  function Findings(r: FileReport): seq<Finding> {
    r.vulnerabilities.GetOr([])
  }

  function ReportSize(r: FileReport): nat {
    |Findings(r)|
  }

  function ReportWeight(r: FileReport): nat {
    Sum(Findings(r), FindingWeight)
  }

  /** N: the number of findings over all reports. */
  function FindingCount(reports: seq<FileReport>): nat {
    Sum(reports, ReportSize)
  }

  /** W: the total severity weight over all reports. */
  function WeightTotal(reports: seq<FileReport>): nat {
    Sum(reports, ReportWeight)
  }

  /** Each finding weighs between 1 and 10, so N <= W <= 10·N. */
  lemma {:induction false} WeightTotalBounds(reports: seq<FileReport>)
    ensures FindingCount(reports) <= WeightTotal(reports) <= MaxWeight * FindingCount(reports)
  {
    if reports != [] {
      SumBounds(Findings(reports[0]), FindingWeight, 1, MaxWeight);
      WeightTotalBounds(reports[1..]);
    }
  }

  datatype Level = Low | Medium | High | Critical {
    /** Position in the order LOW < MEDIUM < HIGH < CRITICAL. */
    function Rank(): nat {
      match this
      case Low => 0
      case Medium => 1
      case High => 2
      case Critical => 3
    }
  }

  /** The inclusive lower score bound of every level above LOW. */
  function Threshold(l: Level): real
    requires l != Low
  {
    match l
    case Medium => 25.0
    case High => 50.0
    case Critical => 75.0
  }

  /** The level of a score: the highest level whose threshold it reaches. */
  function Classify(score: real): (l: Level)
    ensures forall t: Level :: t != Low ==> (t.Rank() <= l.Rank() <==> Threshold(t) <= score)
  {
    if score >= 75.0 then Critical
    else if score >= 50.0 then High
    else if score >= 25.0 then Medium
    else Low
  }

  /** A higher score never gets a lower level. */
  lemma ClassifyMonotone(a: real, b: real)
    requires a <= b
    ensures Classify(a).Rank() <= Classify(b).Rank()
  {
  }

  /** Each threshold belongs to the level it opens; just below it is the level beneath. */
  lemma ThresholdBoundaries()
    ensures Classify(75.0) == Critical && Classify(74.99) == High
    ensures Classify(50.0) == High && Classify(49.99) == Medium
    ensures Classify(25.0) == Medium && Classify(24.99) == Low
  {
  }

  /** The raw score: W as a share of the worst case N·10, times 100. */
  function Score(w: nat, n: nat): real
    requires n > 0
  {
    (w as real / (n * MaxWeight) as real) * 100.0
  }

  /** The raw score is 10·W/N. */
  lemma ScoreTimesCount(w: nat, n: nat)
    requires n > 0
    ensures Score(w, n) * n as real == 10.0 * w as real
  {
    var m := (n * MaxWeight) as real;
    assert m == 10.0 * n as real;
    assert (w as real / m) * m == w as real;
  }

  /** The raw score is the mean weight times ten. */
  lemma ScoreIsMean(w: nat, n: nat)
    requires n > 0
    ensures Score(w, n) == 10.0 * w as real / n as real
  {
    ScoreTimesCount(w, n);
  }

  /** Multiplying both sides by a positive factor keeps a comparison. */
  lemma ScaleCompare(x: real, y: real, m: real)
    requires m > 0.0
    ensures x >= y <==> x * m >= y * m
  {
    if x >= y {
      assert (x - y) * m >= 0.0;
    } else {
      assert (y - x) * m > 0.0;
    }
  }

  /** The raw score grows with W. */
  lemma ScoreMonotone(w1: nat, w2: nat, n: nat)
    requires n > 0 && w1 <= w2
    ensures Score(w1, n) <= Score(w2, n)
  {
    ScoreTimesCount(w1, n);
    ScoreTimesCount(w2, n);
    ScaleCompare(Score(w2, n), Score(w1, n), n as real);
  }

  /** With N <= W <= 10·N the raw score lies in [10, 100]. */
  lemma ScoreBounds(w: nat, n: nat)
    requires n > 0 && n <= w <= MaxWeight * n
    ensures 10.0 <= Score(w, n) <= 100.0
  {
    ScoreTimesCount(w, n);
    ScaleCompare(Score(w, n), 10.0, n as real);
    ScaleCompare(100.0, Score(w, n), n as real);
  }

  /** Rounding to two decimal places, ties upward. */
  function Round2(x: real): real {
    ((x * 100.0 + 0.5).Floor as real) / 100.0
  }

  lemma Round2Monotone(a: real, b: real)
    requires a <= b
    ensures Round2(a) <= Round2(b)
  {
    var fa := (a * 100.0 + 0.5).Floor;
    var fb := (b * 100.0 + 0.5).Floor;
    assert fa as real <= a * 100.0 + 0.5 <= b * 100.0 + 0.5 < fb as real + 1.0;
    assert fa <= fb;
  }

  /** Whole numbers are unchanged by rounding. */
  lemma Round2Whole(k: int)
    ensures Round2(k as real) == k as real
  {
    assert (k as real * 100.0 + 0.5).Floor == k * 100;
  }

  /** The level as integer inequalities over W and N: CRITICAL iff 2W >= 15N,
      HIGH iff W >= 5N, MEDIUM iff 2W >= 5N. */
  function LevelFromCounts(w: nat, n: nat): Level {
    if 2 * w >= 15 * n then Critical
    else if w >= 5 * n then High
    else if 2 * w >= 5 * n then Medium
    else Low
  }

  /** The raw score reaches `c` exactly when 10·W reaches c·N. */
  lemma ScoreReaches(w: nat, n: nat, c: real)
    requires n > 0
    ensures Score(w, n) >= c <==> 10.0 * w as real >= c * n as real
  {
    var s, m := Score(w, n), n as real;
    ScoreTimesCount(w, n);
    if s >= c {
      assert (s - c) * m >= 0.0;
    } else {
      assert (c - s) * m > 0.0;
    }
  }

  /** Classifying the exact score 10·W/N is the same as the integer test. */
  lemma ClassifyByCounts(w: nat, n: nat)
    requires n > 0
    ensures Classify(Score(w, n)) == LevelFromCounts(w, n)
  {
    ScoreReaches(w, n, 75.0);
    ScoreReaches(w, n, 50.0);
    ScoreReaches(w, n, 25.0);
  }

  /** The aggregator's output. */
  datatype RiskSummary = RiskSummary(score: real, level: Level, total: nat)

  /** The summary of a collection of file reports. */
  function Calculate(reports: seq<FileReport>): (r: RiskSummary)
    ensures r.total == FindingCount(reports)
    ensures r.total == 0 ==> r == RiskSummary(0.0, Low, 0)
    ensures r.total > 0 ==> 10.0 <= r.score <= 100.0
    ensures r.total > 0 ==> r.score == Round2(10.0 * WeightTotal(reports) as real / r.total as real)
    ensures r.score == 0.0 <==> r.total == 0
    ensures r.total > 0 ==> r.level == LevelFromCounts(WeightTotal(reports), r.total)
  {
    var n := FindingCount(reports);
    var w := WeightTotal(reports);
    if n == 0 then RiskSummary(0.0, Low, 0)
    else
      var score := Score(w, n);
      WeightTotalBounds(reports);
      ScoreBounds(w, n);
      Round2Monotone(10.0, score);
      Round2Monotone(score, 100.0);
      Round2Whole(10);
      Round2Whole(100);
      ClassifyByCounts(w, n);
      ScoreIsMean(w, n);
      RiskSummary(Round2(score), Classify(score), n)
  }

  /** The aggregation as `calculate_risk_score` writes it: one pass over the reports,
      an inner pass over each report's findings, then the short-circuit for
      zero findings, the normalisation and the classification. */
  method CalculateRiskScore(reports: seq<FileReport>) returns (r: RiskSummary)
    ensures r == Calculate(reports)
  {
    var totalWeight: nat := 0;
    var totalVulnerabilities: nat := 0;
    for i := 0 to |reports|
      invariant totalVulnerabilities == FindingCount(reports[..i])
      invariant totalWeight == WeightTotal(reports[..i])
    {
      var vulnerabilities := Findings(reports[i]);
      totalVulnerabilities := totalVulnerabilities + |vulnerabilities|;
      for j := 0 to |vulnerabilities|
        invariant totalWeight == WeightTotal(reports[..i]) + Sum(vulnerabilities[..j], FindingWeight)
      {
        totalWeight := totalWeight + FindingWeight(vulnerabilities[j]);
        assert vulnerabilities[..j + 1] == vulnerabilities[..j] + [vulnerabilities[j]];
        SumConcat(vulnerabilities[..j], [vulnerabilities[j]], FindingWeight);
      }
      assert vulnerabilities[..|vulnerabilities|] == vulnerabilities;
      assert reports[..i + 1] == reports[..i] + [reports[i]];
      SumConcat(reports[..i], [reports[i]], ReportSize);
      SumConcat(reports[..i], [reports[i]], ReportWeight);
    }
    assert reports[..|reports|] == reports;
    if totalVulnerabilities == 0 {
      return RiskSummary(0.0, Low, 0);
    }
    var maxPossibleWeight := totalVulnerabilities * MaxWeight;
    var score := (totalWeight as real / maxPossibleWeight as real) * 100.0;
    var riskLevel := Classify(score);
    r := RiskSummary(Round2(score), riskLevel, totalVulnerabilities);
  }

  /** Every finding in `reports` weighs what `severity` weighs. */
  predicate Uniform(reports: seq<FileReport>, severity: string) {
    forall i, j :: 0 <= i < |reports| && 0 <= j < |Findings(reports[i])| ==>
      FindingWeight(Findings(reports[i])[j]) == Weight(severity)
  }

  /** N findings all of weight c score exactly 10·c. */
  lemma UniformScore(c: nat, n: nat)
    requires n > 0
    ensures Score(c * n, n) == (10 * c) as real
  {
    var s, m := Score(c * n, n), n as real;
    ScoreTimesCount(c * n, n);
    assert (c * n) as real == c as real * m;
    assert s * m == (10 * c) as real * m;
    ScaleCompare(s, (10 * c) as real, m);
    ScaleCompare((10 * c) as real, s, m);
  }

  /** When all findings share one severity S, the score is 10·weight(S),
      whatever the number of findings and however they are spread over files. */
  lemma HomogeneousScore(reports: seq<FileReport>, severity: string)
    requires Uniform(reports, severity) && FindingCount(reports) > 0
    ensures Calculate(reports).score == 10.0 * Weight(severity) as real
    ensures Calculate(reports).level == Classify(10.0 * Weight(severity) as real)
  {
    var c, n := Weight(severity), FindingCount(reports);
    forall k | 0 <= k < |reports|
      ensures ReportWeight(reports[k]) == c * ReportSize(reports[k])
    {
      SumConstant(Findings(reports[k]), FindingWeight, c);
    }
    SumScaled(reports, ReportWeight, ReportSize, c);
    assert WeightTotal(reports) == c * n;
    UniformScore(c, n);
    Round2Whole(10 * c);
  }

  /** Reordering the reports does not change the summary. */
  lemma ReportOrderIrrelevant(a: seq<FileReport>, b: seq<FileReport>)
    requires multiset(a) == multiset(b)
    ensures Calculate(a) == Calculate(b)
  {
    SumPermutation(a, b, ReportSize);
    SumPermutation(a, b, ReportWeight);
  }

  /** `reports` with report `i`'s findings replaced by `fs`. */
  function WithFindings(reports: seq<FileReport>, i: nat, fs: seq<Finding>): seq<FileReport>
    requires i < |reports|
  {
    reports[i := FileReport(reports[i].file, Some(fs))]
  }

  /** Reordering the findings inside one report does not change the summary. */
  lemma FindingOrderIrrelevant(reports: seq<FileReport>, i: nat, fs: seq<Finding>)
    requires i < |reports| && multiset(fs) == multiset(Findings(reports[i]))
    ensures Calculate(WithFindings(reports, i, fs)) == Calculate(reports)
  {
    var x := FileReport(reports[i].file, Some(fs));
    var moved := WithFindings(reports, i, fs);
    assert FindingCount(moved) == FindingCount(reports) by {
      assert |fs| == |multiset(fs)| == |Findings(reports[i])|;
      SumUpdate(reports, i, x, ReportSize);
    }
    assert WeightTotal(moved) == WeightTotal(reports) by {
      SumPermutation(fs, Findings(reports[i]), FindingWeight);
      SumUpdate(reports, i, x, ReportWeight);
    }
  }

  /** `reports` with finding `j` of report `i` given the severity `severity`. */
  function WithSeverity(reports: seq<FileReport>, i: nat, j: nat, severity: string): seq<FileReport>
    requires i < |reports| && j < |Findings(reports[i])|
  {
    WithFindings(reports, i, Findings(reports[i])[j := Finding(Some(severity))])
  }

  /** Raising one finding's severity weight keeps the count and never lowers
      the score or the level. */
  lemma RaisingSeverityNeverLowers(reports: seq<FileReport>, i: nat, j: nat, severity: string)
    requires i < |reports| && j < |Findings(reports[i])|
    requires FindingWeight(Findings(reports[i])[j]) <= Weight(severity)
    ensures Calculate(WithSeverity(reports, i, j, severity)).total == Calculate(reports).total
    ensures Calculate(WithSeverity(reports, i, j, severity)).score >= Calculate(reports).score
    ensures Calculate(WithSeverity(reports, i, j, severity)).level.Rank() >= Calculate(reports).level.Rank()
  {
    var fs := Findings(reports[i]);
    var fs' := fs[j := Finding(Some(severity))];
    var x := FileReport(reports[i].file, Some(fs'));
    var raised := WithSeverity(reports, i, j, severity);
    SumUpdate(fs, j, Finding(Some(severity)), FindingWeight);
    SumUpdate(reports, i, x, ReportSize);
    SumUpdate(reports, i, x, ReportWeight);
    var n, w, w' := FindingCount(reports), WeightTotal(reports), WeightTotal(raised);
    assert FindingCount(raised) == n && w <= w';
    if n > 0 {
      ScoreMonotone(w, w', n);
      Round2Monotone(Score(w, n), Score(w', n));
      ClassifyByCounts(w, n);
      ClassifyByCounts(w', n);
      ClassifyMonotone(Score(w, n), Score(w', n));
    }
  }

  /** Reports without findings, such as a missing `vulnerabilities` key or
      the analyzer's fallback, contribute nothing. */
  lemma EmptyReportsAreNeutral(reports: seq<FileReport>, extra: seq<FileReport>)
    requires forall k :: 0 <= k < |extra| ==> Findings(extra[k]) == []
    ensures Calculate(reports + extra) == Calculate(reports)
  {
    SumConcat(reports, extra, ReportSize);
    SumConcat(reports, extra, ReportWeight);
    SumConstant(extra, ReportSize, 0);
    SumConstant(extra, ReportWeight, 0);
  }

  /** One HIGH finding scores 70 and is HIGH. */
  lemma SingleHighExample()
    ensures Calculate([FileReport(Some("a.py"), Some([Finding(Some("HIGH"))]))])
         == RiskSummary(70.0, High, 1)
  {
    assert Upper("HIGH") == "HIGH";
    Round2Whole(70);
  }

  /** A file with a CRITICAL and a LOW finding plus a file with a MEDIUM
      finding weigh 15 of 30, so 50 and HIGH, whatever the file names and
      however the labels are cased. */
  lemma MixedReportsExample(fileA: Option<string>, fileB: Option<string>, c: string, l: string, m: string)
    requires Upper(c) == "CRITICAL" && Upper(l) == "LOW" && Upper(m) == "MEDIUM"
    ensures Calculate([FileReport(fileA, Some([Finding(Some(c)), Finding(Some(l))])),
                       FileReport(fileB, Some([Finding(Some(m))]))])
         == RiskSummary(50.0, High, 3)
  {
    var critical, low, medium := Finding(Some(c)), Finding(Some(l)), Finding(Some(m));
    var a := FileReport(fileA, Some([critical, low]));
    var b := FileReport(fileB, Some([medium]));
    assert FindingWeight(critical) == 10 && FindingWeight(low) == 1 && FindingWeight(medium) == 4;
    assert ReportWeight(a) == 11 && ReportSize(a) == 2 by {
      SumSingleton(critical, FindingWeight);
      SumSingleton(low, FindingWeight);
      SumConcat([critical], [low], FindingWeight);
      assert [critical] + [low] == [critical, low];
    }
    assert ReportWeight(b) == 4 && ReportSize(b) == 1 by {
      SumSingleton(medium, FindingWeight);
    }
    assert WeightTotal([a, b]) == 15 && FindingCount([a, b]) == 3 by {
      SumSingleton(a, ReportWeight);
      SumSingleton(b, ReportWeight);
      SumSingleton(a, ReportSize);
      SumSingleton(b, ReportSize);
      SumConcat([a], [b], ReportWeight);
      SumConcat([a], [b], ReportSize);
      assert [a] + [b] == [a, b];
    }
    ScoreIsMean(15, 3);
    Round2Whole(50);
  }

  /** A tie is rounded upward: 13 LOW and 3 MEDIUM findings (W = 25, N = 16)
      score exactly 15.625, which is reported as 15.63. */
  lemma TieRoundsUp()
    ensures Score(25, 16) == 15.625 && Round2(15.625) == 15.63
  {
    ScoreIsMean(25, 16);
    assert (15.625 * 100.0 + 0.5).Floor == 1563;
  }

  /** Because the level is taken before rounding, 167 CRITICAL and 836 HIGH
      findings (W = 7522, N = 1003, raw score 74.995...) report a score of
      75.0 with level HIGH, although 75.0 itself classifies as CRITICAL. */
  lemma LevelPrecedesRounding()
    ensures var reports := [FileReport(None, Some(seq(167, _ => Finding(Some("CRITICAL")))
                                                  + seq(836, _ => Finding(Some("HIGH")))))];
            Calculate(reports) == RiskSummary(75.0, High, 1003) && Classify(75.0) == Critical
  {
    var critical := seq(167, _ => Finding(Some("CRITICAL")));
    var high := seq(836, _ => Finding(Some("HIGH")));
    var reports := [FileReport(None, Some(critical + high))];
    assert Upper("HIGH") == "HIGH";
    assert Upper("CRITICAL") == "CRITICAL";
    SumConstant(critical, FindingWeight, 10);
    SumConstant(high, FindingWeight, 7);
    SumConcat(critical, high, FindingWeight);
    assert Findings(reports[0]) == critical + high;
    SumSingleton(reports[0], ReportWeight);
    SumSingleton(reports[0], ReportSize);
    assert ReportWeight(reports[0]) == 7522;
    assert ReportSize(reports[0]) == 1003;
    assert WeightTotal(reports) == 7522;
    assert FindingCount(reports) == 1003;
    ClassifyByCounts(7522, 1003);
    ScoreTimesCount(7522, 1003);
    var s := Score(7522, 1003);
    assert 7499.5 < s * 100.0 < 7500.0;
    assert (s * 100.0 + 0.5).Floor == 7500;
  }
}

=== FILE: sums.dfy ===
/** Sums of a non-negative measure over a sequence, and the facts the risk
    aggregator needs about them: splitting, permuting, updating one element,
    and bounding. */
module Sums {

  /** The sum of `f` over the elements of `s`, in order. */
  function Sum<T>(s: seq<T>, f: T -> nat): nat {
    if s == [] then 0 else f(s[0]) + Sum(s[1..], f)
  }

  lemma {:induction false} SumConcat<T>(a: seq<T>, b: seq<T>, f: T -> nat)
    ensures Sum(a + b, f) == Sum(a, f) + Sum(b, f)
  {
    if a == [] {
      assert a + b == b;
    } else {
      assert (a + b)[1..] == a[1..] + b;
      SumConcat(a[1..], b, f);
    }
  }

  lemma SumSingleton<T>(x: T, f: T -> nat)
    ensures Sum([x], f) == f(x)
  {
    assert [x][1..] == [];
  }

  /** Removing the element at `i` removes exactly its measure. */
  lemma SumRemove<T>(s: seq<T>, i: nat, f: T -> nat)
    requires i < |s|
    ensures Sum(s, f) == Sum(s[..i], f) + f(s[i]) + Sum(s[i + 1..], f)
  {
    assert s == s[..i] + ([s[i]] + s[i + 1..]);
    SumConcat(s[..i], [s[i]] + s[i + 1..], f);
    assert ([s[i]] + s[i + 1..])[1..] == s[i + 1..];
  }

  /** A sum does not depend on the order of its elements. */
  lemma {:induction false} SumPermutation<T>(a: seq<T>, b: seq<T>, f: T -> nat)
    requires multiset(a) == multiset(b)
    ensures Sum(a, f) == Sum(b, f)
    decreases |a|
  {
    if a == [] {
      assert |b| == |multiset(b)| == 0;
    } else {
      var x := a[0];
      assert x in multiset(b);
      var i :| 0 <= i < |b| && b[i] == x;
      var b' := b[..i] + b[i + 1..];
      assert b == b[..i] + [x] + b[i + 1..];
      assert a == [x] + a[1..];
      calc {
        multiset(b);
        multiset(b[..i] + [x] + b[i + 1..]);
        multiset(b[..i]) + multiset{x} + multiset(b[i + 1..]);
        multiset(b') + multiset{x};
      }
      assert multiset(a) == multiset{x} + multiset(a[1..]);
      assert forall y :: multiset(a[1..])[y] == multiset(b')[y] by {
        forall y ensures multiset(a[1..])[y] == multiset(b')[y] {
          assert multiset(a)[y] == multiset{x}[y] + multiset(a[1..])[y];
          assert multiset(b)[y] == multiset(b')[y] + multiset{x}[y];
        }
      }
      assert multiset(a[1..]) == multiset(b');
      SumPermutation(a[1..], b', f);
      SumRemove(b, i, f);
      SumConcat(b[..i], b[i + 1..], f);
    }
  }

  /** Replacing the element at `i` by `x` trades its measure for `x`'s. */
  lemma SumUpdate<T>(s: seq<T>, i: nat, x: T, f: T -> nat)
    requires i < |s|
    ensures Sum(s[i := x], f) + f(s[i]) == Sum(s, f) + f(x)
  {
    SumRemove(s, i, f);
    SumRemove(s[i := x], i, f);
    assert s[i := x][..i] == s[..i];
    assert s[i := x][i + 1..] == s[i + 1..];
  }

  lemma MulSucc(a: nat, n: nat)
    ensures a * (n + 1) == a * n + a
  {
  }

  /** Every element measuring between `lo` and `hi` bounds the sum by the length. */
  lemma {:induction false} SumBounds<T>(s: seq<T>, f: T -> nat, lo: nat, hi: nat)
    requires forall k :: 0 <= k < |s| ==> lo <= f(s[k]) <= hi
    ensures lo * |s| <= Sum(s, f) <= hi * |s|
  {
    if s != [] {
      SumBounds(s[1..], f, lo, hi);
      MulSucc(lo, |s[1..]|);
      MulSucc(hi, |s[1..]|);
    }
  }

  /** Every element measuring `c` makes the sum `c` times the length. */
  lemma {:induction false} SumConstant<T>(s: seq<T>, f: T -> nat, c: nat)
    requires forall k :: 0 <= k < |s| ==> f(s[k]) == c
    ensures Sum(s, f) == c * |s|
  {
    if s != [] {
      SumConstant(s[1..], f, c);
      assert c * |s| == c * |s[1..]| + c;
    }
  }

  /** A measure that is pointwise `c` times another sums to `c` times its sum. */
  lemma {:induction false} SumScaled<T>(s: seq<T>, f: T -> nat, g: T -> nat, c: nat)
    requires forall k :: 0 <= k < |s| ==> f(s[k]) == c * g(s[k])
    ensures Sum(s, f) == c * Sum(s, g)
  {
    if s != [] {
      SumScaled(s[1..], f, g, c);
    }
  }
}

=== FILE: text.dfy ===
/** The handful of Python `str` operations the scanner relies on, over
    `seq<char>`: `strip`, `upper`, `lower`, `startswith`, the `in` substring
    test and `split(sep)`.  Whitespace and letter case are those of ASCII. */
module Text {
  import opened Wrappers

  /** The ASCII characters Python's `str.isspace` accepts. */
  predicate IsSpace(c: char) {
    // space, tab, line feed, vertical tab, form feed, carriage return,
    // and the four information separators 0x1C..0x1F
    c == ' ' || 9 <= c as int <= 13 || 28 <= c as int <= 31
  }

  /** `s.lstrip()`: the shortest suffix left after removing leading whitespace. */
  function StripLeft(s: string): (r: string)
    ensures |r| <= |s| && r == s[|s| - |r|..]
    ensures forall k :: 0 <= k < |s| - |r| ==> IsSpace(s[k])
    ensures r == [] || !IsSpace(r[0])
  {
    if |s| > 0 && IsSpace(s[0]) then StripLeft(s[1..]) else s
  }

  /** `s.rstrip()`: the longest prefix left after removing trailing whitespace. */
  function StripRight(s: string): (r: string)
    ensures |r| <= |s| && r == s[..|r|]
    ensures forall k :: |r| <= k < |s| ==> IsSpace(s[k])
    ensures r == [] || !IsSpace(r[|r| - 1])
  {
    if |s| > 0 && IsSpace(s[|s| - 1]) then StripRight(s[..|s| - 1]) else s
  }

  /** `r` is the slice of `s` starting at `i`, and everything of `s` outside
      that slice is whitespace. */
  predicate TrimmedAt(s: string, r: string, i: int) {
    && 0 <= i <= |s| - |r|
    && r == s[i..i + |r|]
    && (forall k :: 0 <= k < i ==> IsSpace(s[k]))
    && (forall k :: i + |r| <= k < |s| ==> IsSpace(s[k]))
  }

  /** `s.strip()`. */
  function Strip(s: string): (r: string)
    ensures |r| <= |s|
    ensures r == [] || (!IsSpace(r[0]) && !IsSpace(r[|r| - 1]))
  {
    var l := StripLeft(s);
    var r := StripRight(l);
    assert r != [] ==> r[0] == l[0];
    r
  }

  /** What `strip` keeps is a slice of its input with only whitespace
      outside it. */
  lemma StripKeepsSlice(s: string)
    ensures exists i :: TrimmedAt(s, Strip(s), i)
  {
    var l := StripLeft(s);
    TrimBothEnds(s, l, StripRight(l));
    assert TrimmedAt(s, Strip(s), |s| - |l|);
  }

  /** `strip` leaves nothing exactly when the input is all whitespace. */
  lemma StripEmpty(s: string)
    ensures Strip(s) == [] <==> forall k :: 0 <= k < |s| ==> IsSpace(s[k])
  {
    var l := StripLeft(s);
    assert Strip(s) == [] ==> l == [];
  }

  /** Trimming a whitespace prefix and then a whitespace suffix keeps a
      slice of `s` with only whitespace outside it. */
  lemma TrimBothEnds(s: string, l: string, r: string)
    requires |l| <= |s| && l == s[|s| - |l|..]
    requires forall k :: 0 <= k < |s| - |l| ==> IsSpace(s[k])
    requires |r| <= |l| && r == l[..|r|]
    requires forall k :: |r| <= k < |l| ==> IsSpace(l[k])
    ensures TrimmedAt(s, r, |s| - |l|)
  {
    var i := |s| - |l|;
    assert r == s[i..i + |r|] by {
      forall j | 0 <= j < |r| ensures r[j] == s[i + j] {
        assert r[j] == l[j];
      }
    }
    forall k | i + |r| <= k < |s| ensures IsSpace(s[k]) {
      assert s[k] == l[k - i];
    }
  }

  /** Trailing whitespace after a prefix that does not end in whitespace is
      stripped from the rest alone. */
  lemma {:induction false} StripRightAfter(p: string, rest: string)
    requires p != [] && !IsSpace(p[|p| - 1])
    ensures StripRight(p + rest) == p + StripRight(rest)
    decreases |rest|
  {
    if rest == [] {
      assert p + rest == p;
    } else if IsSpace(rest[|rest| - 1]) {
      assert (p + rest)[..|p + rest| - 1] == p + rest[..|rest| - 1];
      StripRightAfter(p, rest[..|rest| - 1]);
    }
  }

  /** A string whose ends are not whitespace is its own strip. */
  lemma StripUntrimmed(s: string)
    requires s == [] || (!IsSpace(s[0]) && !IsSpace(s[|s| - 1]))
    ensures Strip(s) == s
  {
  }

  /** Stripping twice is stripping once. */
  lemma StripIdempotent(s: string)
    ensures Strip(Strip(s)) == Strip(s)
  {
    StripUntrimmed(Strip(s));
  }

  /** Concatenation is associative. */
  lemma ConcatAssociative<T>(x: seq<T>, y: seq<T>, z: seq<T>)
    ensures x + (y + z) == (x + y) + z
  {
  }

  /** `s.startswith(p)`. */
  predicate StartsWith(s: string, p: string) {
    |p| <= |s| && s[..|p|] == p
  }

  /** `t` occurs in `s` at index `i`. */
  predicate OccursAt(s: string, t: string, i: int) {
    0 <= i && i + |t| <= |s| && s[i..i + |t|] == t
  }

  /** `t in s`, Python's substring test. */
  predicate Contains(s: string, t: string) {
    exists i :: 0 <= i <= |s| - |t| && OccursAt(s, t, i)
  }

  function UpperChar(c: char): char {
    if 'a' <= c <= 'z' then (c as int - 32) as char else c
  }

  function LowerChar(c: char): char {
    if 'A' <= c <= 'Z' then (c as int + 32) as char else c
  }

  /** `s.upper()` on ASCII letters. */
  function Upper(s: string): (r: string)
    ensures |r| == |s|
    ensures forall k :: 0 <= k < |s| ==> r[k] == UpperChar(s[k])
  {
    seq(|s|, k requires 0 <= k < |s| => UpperChar(s[k]))
  }

  /** `s.lower()` on ASCII letters. */
  function Lower(s: string): (r: string)
    ensures |r| == |s|
    ensures forall k :: 0 <= k < |s| ==> r[k] == LowerChar(s[k])
  {
    seq(|s|, k requires 0 <= k < |s| => LowerChar(s[k]))
  }

  /** Lower-casing twice is lower-casing once. */
  lemma LowerIdempotent(s: string)
    ensures Lower(Lower(s)) == Lower(s)
  {
    assert forall k :: 0 <= k < |s| ==> Lower(Lower(s))[k] == Lower(s)[k];
  }

  /** Upper-casing leaves no lower-case letter and lower-casing no upper-case
      one, and neither changes what the other yields: two strings that agree
      after lower-casing agree after upper-casing, and conversely. */
  lemma CaseFolding(s: string)
    ensures forall k :: 0 <= k < |s| ==> !('a' <= Upper(s)[k] <= 'z')
    ensures forall k :: 0 <= k < |s| ==> !('A' <= Lower(s)[k] <= 'Z')
    ensures Lower(Upper(s)) == Lower(s)
    ensures Upper(Lower(s)) == Upper(s)
  {
    assert forall k :: 0 <= k < |s| ==> Lower(Upper(s))[k] == Lower(s)[k];
    assert forall k :: 0 <= k < |s| ==> Upper(Lower(s))[k] == Upper(s)[k];
  }

  /** An occurrence after index 0 is an occurrence in the tail, one index earlier. */
  lemma OccursShift(s: string, t: string)
    requires |s| > 0
    ensures forall k :: 1 <= k ==> (OccursAt(s, t, k) <==> OccursAt(s[1..], t, k - 1))
  {
    forall k | 1 <= k
      ensures OccursAt(s, t, k) <==> OccursAt(s[1..], t, k - 1)
    {
      if k + |t| <= |s| {
        var here, there := s[k..k + |t|], s[1..][k - 1..k - 1 + |t|];
        assert forall j :: 0 <= j < |t| ==> here[j] == there[j];
        assert here == there;
      }
    }
  }

  /** `s.find(sep)`: the index of the first occurrence of `sep`, if any. */
  function Find(s: string, sep: string): (r: Option<nat>)
    ensures r.Some? ==> OccursAt(s, sep, r.value)
    ensures r.Some? ==> forall k :: 0 <= k < r.value ==> !OccursAt(s, sep, k)
    ensures r.None? <==> !Contains(s, sep)
    decreases |s|
  {
    if |s| < |sep| then None
    else if s[..|sep|] == sep then Some(0)
    else
      OccursShift(s, sep);
      match Find(s[1..], sep)
      case None => None
      case Some(i) =>
        assert OccursAt(s, sep, i + 1);
        Some(i + 1)
  }

  /** Before the leftmost occurrence at `i` there is no occurrence, even
      counting all but the last character of the occurrence itself. */
  lemma NothingBeforeFirst(s: string, sep: string, i: nat)
    requires |sep| > 0 && OccursAt(s, sep, i)
    requires forall k :: 0 <= k < i ==> !OccursAt(s, sep, k)
    ensures !Contains(s[..i], sep)
    ensures !Contains(s[..i] + sep[..|sep| - 1], sep)
  {
    var head := s[..i];
    var ext := head + sep[..|sep| - 1];
    assert ext == s[..i + |sep| - 1] by {
      forall j | 0 <= j < |ext| ensures ext[j] == s[j] {
        if j >= i {
          assert ext[j] == sep[j - i] == s[i..i + |sep|][j - i];
        }
      }
    }
    forall k | 0 <= k <= |head| - |sep|
      ensures !OccursAt(head, sep, k)
    {
      assert !OccursAt(s, sep, k);
      assert head[k..k + |sep|] == s[k..k + |sep|];
    }
    forall k | 0 <= k <= |ext| - |sep|
      ensures !OccursAt(ext, sep, k)
    {
      assert !OccursAt(s, sep, k);
      assert ext[k..k + |sep|] == s[k..k + |sep|];
    }
  }

  /** The inverse of `SplitOn`: the pieces glued back with `sep` between them. */
  function JoinWith(pieces: seq<string>, sep: string): string
    requires |pieces| >= 1
  {
    if |pieces| == 1 then pieces[0] else pieces[0] + sep + JoinWith(pieces[1..], sep)
  }

  /** `s.split(sep)` for a non-empty separator: the text between successive
      non-overlapping occurrences of `sep`, scanning from the left.  Each
      piece but the last ends at the leftmost occurrence after it starts:
      not even the piece followed by all but the last character of `sep`
      holds an occurrence. */
  function SplitOn(s: string, sep: string): (pieces: seq<string>)
    requires |sep| > 0
    ensures |pieces| >= 1
    ensures JoinWith(pieces, sep) == s
    ensures forall k :: 0 <= k < |pieces| ==> !Contains(pieces[k], sep)
    ensures forall k :: 0 <= k < |pieces| - 1 ==> !Contains(pieces[k] + sep[..|sep| - 1], sep)
    ensures |pieces| == 1 <==> !Contains(s, sep)
    ensures |pieces| >= 2 ==> Find(s, sep) == Some(|pieces[0]|)
    decreases |s|
  {
    match Find(s, sep)
    case None => [s]
    case Some(i) =>
      var head := s[..i];
      var rest := SplitOn(s[i + |sep|..], sep);
      NothingBeforeFirst(s, sep, i);
      assert s == head + sep + s[i + |sep|..];
      [head] + rest
  }

  /** The first piece of `s.split(sep)` is the text before the leftmost
      occurrence of `sep`, or all of `s` when there is none. */
  lemma FirstPiece(s: string, sep: string)
    requires |sep| > 0
    ensures !Contains(SplitOn(s, sep)[0], sep)
    ensures StartsWith(s, SplitOn(s, sep)[0])
    ensures Contains(s, sep) ==> StartsWith(s, SplitOn(s, sep)[0] + sep)
    ensures Contains(s, sep) ==> Find(s, sep) == Some(|SplitOn(s, sep)[0]|)
    ensures !Contains(s, sep) ==> SplitOn(s, sep)[0] == s
  {
    var pieces := SplitOn(s, sep);
    if |pieces| >= 2 {
      assert s == pieces[0] + sep + JoinWith(pieces[1..], sep);
      assert s[..|pieces[0]|] == pieces[0];
      assert s[..|pieces[0] + sep|] == pieces[0] + sep;
    }
  }

  /** A string that starts with the separator splits into an empty first piece
      and at least one more: index 1 of `s.split(sep)` always exists. */
  lemma SplitLeadingSeparator(s: string, sep: string)
    requires |sep| > 0 && StartsWith(s, sep)
    ensures |SplitOn(s, sep)| >= 2
    ensures SplitOn(s, sep)[0] == []
    ensures SplitOn(s, sep)[1..] == SplitOn(s[|sep|..], sep)
  {
    assert OccursAt(s, sep, 0);
  }
}

=== FILE: wrappers.dfy ===
/** Optional values: the model's stand-in for a missing dictionary key, a
    failed call or a failed decode. */
module Wrappers {

  datatype Option<+T> = None | Some(value: T) {

    /** The wrapped value, or `default` when there is none (Python's `dict.get(key, default)`). */
    function GetOr(default: T): (r: T)
      ensures Some? ==> r == value
      ensures None? ==> r == default
    {
      match this
      case Some(v) => v
      case None => default
    }
  }
}
